=== FILE: README.md ===
# Kloudspeaker installer decision logic, in Dafny

This project models the database installer of Kloudspeaker, a PHP
file-sharing application. The installer decides whether the application's
schema is absent, left over from a 2.x release, outdated or current. It then
proposes, and on request carries out, one of three actions: `system:install`,
`system:migrate` or `system:update`.

Two versions of the installer exist and both are modelled:

- `setup/Installer.php` is the structured installer. `checkInstallation`
  returns a flags record plus the list of proposed actions.
  `performInstallation` re-runs the check and dispatches the actions.
- `api/Setup/Installer.php` is the older installer. `cmdInstall` walks the
  same gates except the configuration-file check and answers TRUE, FALSE or NULL.

The collaborators are replaced by one immutable `Environment.Snapshot`.
The collaborators are the configuration accessor, the connectivity probe,
the database handle and the bundled `versions.json`. The snapshot holds:

- whether the configuration file exists;
- the `db` configuration entry as a map of option names to values;
- the probe's `(connected, reason)` answer;
- the `parameter` table as a list of rows, or nothing while the table does not exist;
- a journal of the database operations issued;
- the catalog of releases.

Modules:

- `Wrappers`: `Option` (PHP NULL is `None`) and `Result` (an escaping exception is `Failure`).
- `Catalog`: release entries, the memoised catalog accessor, and "latest is the last entry".
- `Environment`: the snapshot, the row lookup behind `firstValue`, PHP truthiness, and the database-configuration rule.
- `SetupInstaller`: `checkInstallation`, `installSystem`, `migrateSystem`, the dispatch loop and `performInstallation`.
- `ApiInstaller`: `cmdInstall` and `migrate`, plus lemmas relating them to the structured installer.

Points of PHP semantics made explicit:

- A marker lookup yields a string or NULL. `!$x` treats NULL, `""` and `"0"` as false (`Environment.Truthy`).
- The `catch (Exception $e)` clauses at setup/Installer.php:99 and :167 sit in namespace `Kloudspeaker\Setup`. They name `Kloudspeaker\Setup\Exception`, not the global class, so they catch nothing the installer throws. Thrown errors therefore escape: an empty catalog, an unhandled action id, or a select on a missing table. The model returns them as `Failure(InstallError)`. So a failure while resolving the installed version escapes instead of yielding no actions, and a failure inside the perform loop is not rolled back.
- `performInstallation` dispatches only `system:install` and `system:migrate`. An update proposed by the check makes the run fail with `Invalid install action` (`SetupInstaller.PerformRejectsUpdate`).
- The `database_version` field of the report is never filled in. `SetupInstaller.Check` states that it is always NULL.

## Model

| member | source | states |
|---|---|---|
| Catalog.VersionInfo | setup/Installer.php:119-123 | The accessor reads the file only while the memo is empty. After that it answers from the memo, and the memo then holds the answer. |
| Catalog.ReadsAtMostOnce | setup/Installer.php:119-123 | Over any number of consecutive calls, the file is read exactly once when the memo starts empty, and never when it starts filled. |
| Catalog.AnswersAreStable | setup/Installer.php:119-123 | Every call in such a series answers with the catalog of the first read, even if the file later changes. |
| Catalog.Latest | setup/Installer.php:125-129 | The latest release is the last catalog entry. It is absent exactly when the catalog is empty. |
| Catalog.LatestOfAppend | setup/Installer.php:125-129 | Appending a release to the catalog makes it the latest, whatever its id. |
| Catalog.LatestVersion | setup/Installer.php:125-129 | `getLatestVersion` consults the memo it was given, or the file when the memo is empty, answers with that catalog's last entry, fails on an empty one, and leaves the memo filled. |
| Catalog.CachedLatestAgrees | setup/Installer.php:119-129 | With the memo empty or holding the bundled file, the memoised latest equals the file's last entry. |
| Environment.FirstRow | setup/Installer.php:111-113 | A select filtered on a name finds the first row with that name, and every earlier row has another name. It finds none exactly when no row has the name. |
| Environment.FirstValue | setup/Installer.php:111-113 | A marker lookup is NULL when no row has the name; otherwise it is the value of the first row with that name. |
| Environment.FirstValueOfAppend | setup/Installer.php:174-180 | The row inserted by the install is what a later marker lookup reads, when no earlier row has its name. |
| Environment.FirstValueIgnoresOtherAppends | setup/Installer.php:111-113 | Inserting a row under another name does not change a lookup. |
| Environment.LegacyGuardIsExactMatch | setup/Installer.php:73-82 | The guard `!$v` followed by `$v != "2_7_28"` admits exactly one value, the tag itself. |
| Environment.IsDatabaseConfigured | setup/Installer.php:217-225 | True exactly when the `db` entry exists and has the keys `dsn`, `user` and `password`. |
| Environment.DbConfiguredIgnoresValues | api/Setup/Installer.php:88-96 | Only key presence counts: entries with the same keys are judged alike, and all-NULL values still count as configured. |
| SetupInstaller.Proposals | setup/Installer.php:65-98 | At most one action is proposed, and it targets the latest release. A migration is proposed exactly when the marker is falsy and the legacy row is `"2_7_28"`. An update is proposed exactly when the marker is truthy and differs from the latest id, and it starts from the marker. Nothing is proposed exactly in the remaining cases. |
| SetupInstaller.Check | setup/Installer.php:18-109 | Each flag is true exactly when its gate and all earlier gates pass. The connection error is the probe's reason, verbatim, exactly when the probe is the failing gate. `database_version` stays NULL. The check fails only with an empty catalog and the gates passed. With no `parameter` table it proposes exactly an install of the last entry. |
| SetupInstaller.InstallSystem | setup/Installer.php:174-186 | The run fails exactly on an empty catalog. Otherwise it issues the schema script and then one insert: the table keeps every row it held and gains exactly the `database` row, and on a fresh database the marker then reads the latest id. |
| SetupInstaller.MigrateSystem | setup/Installer.php:192-211 | It answers TRUE exactly when the legacy row is `"2_7_28"` and changes nothing. A missing table is an error. |
| SetupInstaller.RunActions | setup/Installer.php:159-165 | The loop succeeds only if every action is an install or a migrate, and it does succeed when that holds, the catalog is non-empty and the `parameter` table exists or is created by a leading install. A single install of the latest entry is carried out by `installSystem`. A list of migrations leaves the database untouched, a leading update aborts with `Invalid install action: system:update`, and the loop only ever extends the journal. |
| SetupInstaller.Perform | setup/Installer.php:145-172 | A run that returns reports success exactly when the check proposed something; a proposed update makes it fail. With no actions it refuses with "No actions available", carries the check, and leaves the database exactly as it was. A completed run opened a transaction first and committed last. A failing check propagates its error. |
| SetupInstaller.InstallThenCheckProposesNothing | setup/Installer.php:174-180 | On an empty database the run issues start, script, insert of the latest id, and commit. A second check then proposes nothing and reports the system installed. |
| SetupInstaller.MigrateLeavesProposalStanding | setup/Installer.php:192-211 | A migration run completes with only start and commit issued, and the next check is identical to the first. |
| SetupInstaller.PerformRejectsUpdate | setup/Installer.php:160-165 | A proposed update always makes the run fail with `Invalid install action: system:update`. |
| SetupInstaller.ProposalsTargetLatest | setup/Installer.php:83-105 | Every check proposes at most one action, and it targets the last catalog entry. |
| ApiInstaller.Migrate | api/Setup/Installer.php:67-86 | It answers TRUE exactly when the legacy row is `"2_7_28"`, and FALSE when there is no legacy row. |
| ApiInstaller.CmdInstall | api/Setup/Installer.php:15-57 | It answers FALSE when the database is unconfigured or unreachable. It answers NULL with no table, or with a truthy marker whatever its value. Otherwise it answers `migrate()`'s result, and it answers TRUE exactly on the migration path with the legacy tag. |
| ApiInstaller.VariantsAgreeOnMigration | api/Setup/Installer.php:40-43 | With a configuration file and a non-empty catalog, the older installer answers TRUE exactly when the structured check proposes the migration from `"2_7_28"`. |
| ApiInstaller.RefusalMeansNoProposal | api/Setup/Installer.php:19-29 | With a configuration file, a FALSE from the older installer means the structured check proposes nothing. |
| ApiInstaller.NullMeansInstallOrUpdatePath | api/Setup/Installer.php:45-65 | With a configuration file and a non-empty catalog, the older installer answers NULL exactly when the structured check gets past the gates and finds either no table or a truthy marker. |

## Left out

- Logging, container wiring and command registration (`initialize`): they do not influence any decision.
- `readFile`, `json_decode` and the bundled files: the version list is given as a sequence of entries. The effect of `create.sql` is abstracted to "the `parameter` table exists", holding the rows it held before or none. The script's own tables and seed rows are not part of this model.
- The memo's loose test `$this->versions == NULL`: it would also re-read a file that decodes to NULL or to an empty array. The memo here holds a decoded version list, so malformed JSON is not modelled.
- `SetupInstaller.Check` uses the snapshot's catalog directly instead of threading the memo. `Catalog.CachedLatestAgrees` shows that the two coincide for an unchanged bundled file.
- PHP's loose `==` and `!=` between numeric-looking version strings: comparisons are plain string equality.
- The catch clauses, rollback and the transaction left open when an error escapes: since the clauses never match, a thrown error is returned as a `Failure` without a resulting database. No atomicity property is claimed.
- Database failures other than a select on a missing `parameter` table, such as a lost connection or a failing script: the database collaborator is not part of this model.
- Plugins: the always-empty `plugins` part of the report, `getPluginInstalledVersion` (its row name interpolates an undefined `$id_version`), `getAllInstallablePlugins`, and the empty plugin loop of `installSystem`.
- `updateSystem` in setup/Installer.php: it is empty and never called.
- `cmdInstall`'s `$opts` argument: it is unused.
- SetupInstaller.InstallSystem: states the marker read-back only for a database without a `parameter` table, because a pre-existing `database` row would shadow the insert and its order is up to the database.
- Concurrent installer runs and transaction isolation: both are left to the database.

=== FILE: api_installer.dfy ===
/** The older installer (`Kloudspeaker\Setup\Installer` under api/): a single
    `install` command that walks the same gates as the structured installer
    except the configuration-file check. It answers TRUE, FALSE or NULL
    instead of a report. Its `install` and `update` handlers are empty and
    answer NULL. */
module ApiInstaller {
  import opened Wrappers
  import opened Environment
  import SetupInstaller

  /** `migrate`: accept only the supported 2.x tag in the legacy `version`
      row. It reads the database and changes nothing. */
  function Migrate(rows: seq<ParamRow>): (r: bool)
    ensures r <==> FirstValue(rows, LegacyMarker) == Some(LegacyMigrationSource)
    ensures FirstRow(rows, LegacyMarker).None? ==> !r
  {
    var from := FirstValue(rows, LegacyMarker);
    if !Truthy(from) then false
    else if from.value != LegacyMigrationSource then false
    else true
  }

  /** `cmdInstall`, with PHP's NULL as `None`. The configuration file is not
      checked and the catalog is not consulted. */
  function CmdInstall(s: Snapshot): (r: Option<bool>)
    ensures !IsDatabaseConfigured(s.dbConfig) ==> r == Some(false)
    ensures IsDatabaseConfigured(s.dbConfig) && !s.probe.connected ==> r == Some(false)
    ensures IsDatabaseConfigured(s.dbConfig) && s.probe.connected && s.db.parameter.None? ==> r == None
    ensures (IsDatabaseConfigured(s.dbConfig) && s.probe.connected && s.db.parameter.Some? &&
             Truthy(FirstValue(s.db.parameter.value, DatabaseMarker))) ==> r == None
    ensures (IsDatabaseConfigured(s.dbConfig) && s.probe.connected && s.db.parameter.Some? &&
             !Truthy(FirstValue(s.db.parameter.value, DatabaseMarker))) ==> r == Some(Migrate(s.db.parameter.value))
    ensures r == Some(true) <==>
              && IsDatabaseConfigured(s.dbConfig) && s.probe.connected && s.db.parameter.Some?
              && !Truthy(FirstValue(s.db.parameter.value, DatabaseMarker))
              && FirstValue(s.db.parameter.value, LegacyMarker) == Some(LegacyMigrationSource)
  {
    if !IsDatabaseConfigured(s.dbConfig) then Some(false)
    else if !s.probe.connected then Some(false)
    else
      match s.db.parameter
      case None => None   // install(): an empty stub
      case Some(rows) =>
        var installed := FirstValue(rows, DatabaseMarker);
        if !Truthy(installed) then Some(Migrate(rows))
        else None         // update(): an empty stub, whatever the version
  }

  /** With a configuration file present, the two installers agree on
      migration: the older one's migrate answers TRUE exactly when the
      structured check proposes a migration. */
  lemma VariantsAgreeOnMigration(s: Snapshot)
    requires s.configExists && |s.versions| > 0
    ensures CmdInstall(s) == Some(true) <==>
              && SetupInstaller.Check(s).Success?
              && SetupInstaller.Check(s).value.available == [SetupInstaller.Migrate(LegacyMigrationSource, s.versions[|s.versions| - 1])]
  {
  }

  /** With a configuration file present, the older installer answers FALSE
      only where the structured check proposes nothing (or, on an empty
      catalog, fails). */
  lemma RefusalMeansNoProposal(s: Snapshot)
    requires s.configExists
    requires CmdInstall(s) == Some(false)
    ensures SetupInstaller.Check(s).Success? ==> SetupInstaller.Check(s).value.available == []
  {
  }

  /** NULL comes from the empty `install` and `update` handlers: the older
      installer answers NULL exactly where the structured check, given a
      non-empty catalog, proposes an install or an update, or finds the system
      current. */
  lemma NullMeansInstallOrUpdatePath(s: Snapshot)
    requires s.configExists && |s.versions| > 0
    ensures CmdInstall(s) == None <==>
              && SetupInstaller.Check(s).Success?
              && SetupInstaller.Check(s).value.system.databaseConnection
              && (s.db.parameter.None? || Truthy(FirstValue(s.db.parameter.value, DatabaseMarker)))
  {
  }
}

=== FILE: catalog.dfy ===
/** The version catalog: the ordered list of releases bundled with the
    installer (`/setup/db/versions.json`), read lazily and kept for the
    lifetime of one installer object. */
module Catalog {
  import opened Wrappers

  /** One release record. Only `id` is interpreted; the rest of the record is
      carried along verbatim. */
  datatype VersionEntry = VersionEntry(id: string, info: map<string, string>)

  /** The memo field of the installer: `None` until the file has been read. */
  type Cache = Option<seq<VersionEntry>>

  /** What one call of the catalog accessor hands back. */
  datatype Loaded = Loaded(versions: seq<VersionEntry>, cache: Cache, readFile: bool)

  /** The catalog accessor: reads `file` only while the memo is empty and
      answers from the memo afterwards, whatever the file now holds. */
  function VersionInfo(cache: Cache, file: seq<VersionEntry>): (r: Loaded)
    ensures r.cache == Some(r.versions)
    ensures r.readFile <==> cache.None?
    ensures cache.Some? ==> r.versions == cache.value
    ensures cache.None? ==> r.versions == file
  {
    match cache
    case Some(vs) => Loaded(vs, cache, false)
    case None => Loaded(file, Some(file), true)
  }

  /** Number of file reads made by consecutive accessor calls, the k-th of
      which would see `files[k]` if it read the file. */
  function ReadsOver(cache: Cache, files: seq<seq<VersionEntry>>): nat
    decreases |files|
  {
    if |files| == 0 then 0
    else
      var step := VersionInfo(cache, files[0]);
      (if step.readFile then 1 else 0) + ReadsOver(step.cache, files[1..])
  }

  /** The catalog every one of those calls answers with. */
  function AnswersOver(cache: Cache, files: seq<seq<VersionEntry>>): seq<seq<VersionEntry>>
    decreases |files|
  {
    if |files| == 0 then []
    else
      var step := VersionInfo(cache, files[0]);
      [step.versions] + AnswersOver(step.cache, files[1..])
  }

  /** The file is read at most once per installer: exactly once when the memo
      starts empty and the accessor is called at all, never otherwise. */
  lemma {:induction false} ReadsAtMostOnce(cache: Cache, files: seq<seq<VersionEntry>>)
    ensures ReadsOver(cache, files) == (if cache.None? && |files| > 0 then 1 else 0)
    ensures ReadsOver(cache, files) <= 1
    decreases |files|
  {
    if |files| > 0 {
      var step := VersionInfo(cache, files[0]);
      ReadsAtMostOnce(step.cache, files[1..]);
    }
  }

  /** Every call answers with the catalog of the first read (or of the memo),
      so later changes to the file are never seen. */
  lemma {:induction false} AnswersAreStable(cache: Cache, files: seq<seq<VersionEntry>>)
    requires |files| > 0
    ensures var first := if cache.Some? then cache.value else files[0];
      forall k :: 0 <= k < |AnswersOver(cache, files)| ==> AnswersOver(cache, files)[k] == first
    ensures |AnswersOver(cache, files)| == |files|
    decreases |files|
  {
    var step := VersionInfo(cache, files[0]);
    if |files| > 1 {
      AnswersAreStable(step.cache, files[1..]);
    } else {
      assert AnswersOver(step.cache, files[1..]) == [];
    }
  }

  /** The latest release: the LAST catalog entry, not a maximum by any
      ordering of ids. `None` means the catalog is empty. */
  function Latest(versions: seq<VersionEntry>): (r: Option<VersionEntry>)
    ensures r.None? <==> |versions| == 0
    ensures r.Some? ==> r.value in versions
    ensures r.Some? ==> r.value == versions[|versions| - 1]
  {
    if |versions| == 0 then None else Some(versions[|versions| - 1])
  }

  /** Appending a release to the catalog makes it the latest one. */
  lemma LatestOfAppend(versions: seq<VersionEntry>, e: VersionEntry)
    ensures Latest(versions + [e]) == Some(e)
  {
  }

  /** The installer's `getLatestVersion`: consult the memoised catalog, then
      take its last entry. */
  function LatestVersion(cache: Cache, file: seq<VersionEntry>): (r: (Option<VersionEntry>, Cache))
    ensures r.1.Some?
    ensures cache.Some? ==> r.1 == cache
    ensures cache.None? ==> r.1 == Some(file)
    ensures r.0.None? <==> |r.1.value| == 0
    ensures r.0.Some? ==> r.0.value == r.1.value[|r.1.value| - 1]
  {
    var loaded := VersionInfo(cache, file);
    (Latest(loaded.versions), loaded.cache)
  }

  /** Because the bundled file never changes during a run, the memo always
      holds either nothing or the file itself, and the memoised answer is the
      file's last entry. */
  lemma CachedLatestAgrees(cache: Cache, file: seq<VersionEntry>)
    requires cache == None || cache == Some(file)
    ensures LatestVersion(cache, file).0 == Latest(file)
    ensures LatestVersion(cache, file).1 == Some(file)
  {
  }
}

=== FILE: environment.dfy ===
/** The installer's collaborators (configuration accessor, connectivity
    probe, database handle, bundled catalog) replaced by one immutable
    snapshot of what they would report. */
module Environment {
  import opened Wrappers
  import opened Catalog

  /** A row of the `parameter` table; `value` is `None` for SQL NULL. */
  datatype ParamRow = ParamRow(name: string, value: Option<string>)

  /** Database operations the installer issues, in the order issued. */
  datatype DbOp = StartTransaction | RunSchemaScript | InsertParameter(row: ParamRow) | Commit

  /** The database as the installer sees it: the `parameter` table (`None`
      while the table does not exist) and the operations issued so far. */
  datatype Database = Database(parameter: Option<seq<ParamRow>>, journal: seq<DbOp>)

  /** The connectivity probe's answer: success flag and reason text. */
  datatype Probe = Probe(connected: bool, reason: string)

  /** Everything one installer run can observe. `dbConfig` is the `db`
      configuration entry (`None` when the key is missing), as a map from
      option name to value, where a value may itself be NULL. `versions` is
      the content of the bundled version list. */
  datatype Snapshot = Snapshot(
    configExists: bool,
    dbConfig: Option<map<string, Option<string>>>,
    probe: Probe,
    db: Database,
    versions: seq<VersionEntry>)

  /** Name of the marker row that records the installed schema version. */
  const DatabaseMarker: string := "database"
  /** Name of the row that recorded the version in the 2.x releases. */
  const LegacyMarker: string := "version"
  /** The only legacy version a migration may start from. */
  const LegacyMigrationSource: string := "2_7_28"

  /** Index of the first row named `name`, the row a select filtered on
      `name` answers with first; `None` when no row has that name. */
  function FirstRow(rows: seq<ParamRow>, name: string): (r: Option<nat>)
    ensures r.Some? ==> r.value < |rows| && rows[r.value].name == name
    ensures r.Some? ==> forall j :: 0 <= j < r.value ==> rows[j].name != name
    ensures r.None? <==> forall j :: 0 <= j < |rows| ==> rows[j].name != name
  {
    if |rows| == 0 then None
    else if rows[0].name == name then Some(0)
    else
      match FirstRow(rows[1..], name)
      case None => None
      case Some(k) => Some(k + 1)
  }

  /** The database layer's `firstValue('value')` on a select of the rows
      named `name`: the value of the first such row, NULL when there is none. */
  function FirstValue(rows: seq<ParamRow>, name: string): (r: Option<string>)
    ensures (forall j :: 0 <= j < |rows| ==> rows[j].name != name) ==> r.None?
    ensures r.Some? ==> exists j :: 0 <= j < |rows| && rows[j].name == name && rows[j].value == r
    ensures FirstRow(rows, name).Some? ==> r == rows[FirstRow(rows, name).value].value
  {
    match FirstRow(rows, name)
    case None => None
    case Some(i) => rows[i].value
  }

  /** A row appended behind rows that do not mention its name is the one a
      lookup of that name finds: the insert the installer issues is what a
      later marker lookup reads. */
  lemma FirstValueOfAppend(rows: seq<ParamRow>, row: ParamRow)
    ensures FirstRow(rows, row.name).None? ==> FirstValue(rows + [row], row.name) == row.value
  {
    var all := rows + [row];
    assert all[|rows|] == row;
    assert forall j :: 0 <= j < |rows| ==> all[j] == rows[j];
  }

  /** Appending a row under another name never changes what a lookup finds. */
  lemma FirstValueIgnoresOtherAppends(rows: seq<ParamRow>, row: ParamRow, name: string)
    requires row.name != name
    ensures FirstValue(rows + [row], name) == FirstValue(rows, name)
  {
    var all := rows + [row];
    assert all[|rows|] == row;
    assert forall j :: 0 <= j < |rows| ==> all[j] == rows[j];
  }

  /** PHP truthiness of a string-or-NULL value: NULL, "" and "0" are false. */
  predicate Truthy(v: Option<string>) {
    v.Some? && v.value != "" && v.value != "0"
  }

  /** The legacy guard `!v` then `v != "2_7_28"` lets exactly one value
      through: the tag itself. Empty strings and version-looking strings such
      as "2_7_0" are refused alike. */
  lemma LegacyGuardIsExactMatch(v: Option<string>)
    ensures (Truthy(v) && v.value == LegacyMigrationSource) <==> v == Some(LegacyMigrationSource)
  {
  }

  /** Option names the database entry of the configuration must have. */
  const RequiredDbKeys: set<string> := {"dsn", "user", "password"}

  /** `isDatabaseConfigured`: the configuration has a `db` entry holding the
      keys `dsn`, `user` and `password`. Only key presence is checked; a key
      whose value is NULL still counts. */
  function IsDatabaseConfigured(dbConfig: Option<map<string, Option<string>>>): (r: bool)
    ensures r <==> dbConfig.Some? && RequiredDbKeys <= dbConfig.value.Keys
  {
    if dbConfig.None? then false
    else
      var dbc := dbConfig.value;
      if "dsn" !in dbc then false
      else if "user" !in dbc then false
      else if "password" !in dbc then false
      else true
  }

  /** Only key presence matters: two entries with the same option names are
      judged alike, whatever their values, and a NULL password is enough. */
  lemma DbConfiguredIgnoresValues(a: map<string, Option<string>>, b: map<string, Option<string>>)
    requires a.Keys == b.Keys
    ensures IsDatabaseConfigured(Some(a)) == IsDatabaseConfigured(Some(b))
    ensures IsDatabaseConfigured(Some(map["dsn" := None, "user" := None, "password" := None]))
  {
  }
}

=== FILE: setup_installer.dfy ===
/** The structured installer (`Kloudspeaker\Setup\Installer` under setup/):
    `checkInstallation` reports how far the environment gets through a chain
    of gates and which action would bring the schema to the latest release;
    `performInstallation` re-runs the check and carries the actions out. */
module SetupInstaller {
  import opened Wrappers
  import opened Catalog
  import opened Environment

  const InstallId: string := "system:install"
  const MigrateId: string := "system:migrate"
  const UpdateId: string := "system:update"
  const NoActionsReason: string := "No actions available"

  /** An action proposed by the check; `to` is always the latest release. */
  datatype Action =
    | Install(to: VersionEntry)
    | Migrate(from: string, to: VersionEntry)
    | Update(from: string, to: VersionEntry)
  {
    /** The action's `id` field in the report. */
    function Id(): string {
      match this
      case Install(_) => InstallId
      case Migrate(_, _) => MigrateId
      case Update(_, _) => UpdateId
    }
  }

  /** Exceptions that escape the installer. The `catch (Exception $e)`
      clauses name a class of the installer's own namespace, not the global
      one, so they catch none of these. */
  datatype InstallError =
    | NoVersionData             // the catalog is empty
    | InvalidAction(id: string) // an action the dispatcher does not handle
    | MissingParameterTable     // a select on `parameter` before the table exists

  /** The `system` part of the report. */
  datatype SystemStatus = SystemStatus(
    configuration: bool,
    databaseConfiguration: bool,
    databaseConnection: bool,
    databaseConnectionError: Option<string>,
    databaseVersion: Option<string>,
    installation: bool)

  /** The report of `checkInstallation`. The `plugins` part is always empty
      and is not represented. */
  datatype CheckReport = CheckReport(system: SystemStatus, available: seq<Action>)

  /** The report's starting value: every flag down. */
  const Unchecked: SystemStatus := SystemStatus(false, false, false, None, None, false)

  /** The three gates in front of the database: configuration file present,
      database entry complete, connectivity probe succeeded. */
  predicate ReachesDatabase(s: Snapshot) {
    s.configExists && IsDatabaseConfigured(s.dbConfig) && s.probe.connected
  }

  /** The actions proposed for an existing `parameter` table holding `rows`:
      an update when the installed marker is set and differs from the latest
      id, a migration when there is no marker and the legacy row holds exactly
      the supported 2.x tag, nothing otherwise. */
  function Proposals(rows: seq<ParamRow>, latest: VersionEntry): (r: seq<Action>)
    ensures |r| <= 1
    ensures forall k :: 0 <= k < |r| ==> r[k].to == latest
    ensures r == [Migrate(LegacyMigrationSource, latest)] <==>
              !Truthy(FirstValue(rows, DatabaseMarker)) && FirstValue(rows, LegacyMarker) == Some(LegacyMigrationSource)
    ensures (|r| == 1 && r[0].Update?) <==>
              Truthy(FirstValue(rows, DatabaseMarker)) && FirstValue(rows, DatabaseMarker).value != latest.id
    ensures |r| == 1 && r[0].Update? ==> r[0].from == FirstValue(rows, DatabaseMarker).value
    ensures |r| == 1 ==> !r[0].Install?
    ensures r == [] <==>
              (Truthy(FirstValue(rows, DatabaseMarker)) && FirstValue(rows, DatabaseMarker).value == latest.id)
              || (!Truthy(FirstValue(rows, DatabaseMarker)) && FirstValue(rows, LegacyMarker) != Some(LegacyMigrationSource))
  {
    var installed := FirstValue(rows, DatabaseMarker);
    if !Truthy(installed) then
      var legacy := FirstValue(rows, LegacyMarker);
      if !Truthy(legacy) then []
      else if legacy.value != LegacyMigrationSource then []
      else [Migrate(legacy.value, latest)]
    else if installed.value == latest.id then []
    else [Update(installed.value, latest)]
  }

  /** `checkInstallation`. Each gate raises one flag and stops the check when
      it fails; a failed probe's reason is reported verbatim. Past the gates
      the latest release is looked up first, so an empty catalog is an error
      even for an up-to-date system. The `database_version` field is never
      filled in. */
  function Check(s: Snapshot): (r: Result<CheckReport, InstallError>)
    ensures r.Failure? <==> ReachesDatabase(s) && |s.versions| == 0
    ensures r.Failure? ==> r.error == NoVersionData
    ensures r.Success? ==>
      var st := r.value.system;
      && st.configuration == s.configExists
      && st.databaseConfiguration == (s.configExists && IsDatabaseConfigured(s.dbConfig))
      && st.databaseConnection == ReachesDatabase(s)
      && st.databaseConnectionError ==
           (if s.configExists && IsDatabaseConfigured(s.dbConfig) && !s.probe.connected
            then Some(s.probe.reason) else None)
      && st.databaseVersion == None
      && st.installation == (ReachesDatabase(s) && s.db.parameter.Some?)
    ensures r.Success? && !ReachesDatabase(s) ==> r.value.available == []
    ensures r.Success? && ReachesDatabase(s) && s.db.parameter.None? ==>
              r.value.available == [Install(s.versions[|s.versions| - 1])]
    ensures r.Success? && ReachesDatabase(s) && s.db.parameter.Some? ==>
              r.value.available == Proposals(s.db.parameter.value, s.versions[|s.versions| - 1])
  {
    if !s.configExists then
      Success(CheckReport(Unchecked, []))
    else if !IsDatabaseConfigured(s.dbConfig) then
      Success(CheckReport(Unchecked.(configuration := true), []))
    else if !s.probe.connected then
      Success(CheckReport(Unchecked.(configuration := true, databaseConfiguration := true,
                                     databaseConnectionError := Some(s.probe.reason)), []))
    else
      var reached := Unchecked.(configuration := true, databaseConfiguration := true,
                                databaseConnection := true);
      match s.db.parameter
      case None =>
        // no parameter table: a fresh install is proposed
        (match Latest(s.versions)
         case None => Failure(NoVersionData)
         case Some(latest) => Success(CheckReport(reached, [Install(latest)])))
      case Some(rows) =>
        var installed := reached.(installation := true);
        (match Latest(s.versions)
         case None => Failure(NoVersionData)
         case Some(latest) => Success(CheckReport(installed, Proposals(rows, latest))))
  }

  /** `installSystem`: run the schema script (which creates the `parameter`
      table when missing), then record the latest id as the `database` row.
      The script runs before the catalog is consulted. */
  function InstallSystem(db: Database, versions: seq<VersionEntry>): (r: Result<Database, InstallError>)
    ensures r.Failure? <==> |versions| == 0
    ensures r.Failure? ==> r.error == NoVersionData
    ensures r.Success? ==> r.value.parameter.Some?
    ensures r.Success? ==> |r.value.parameter.value| == |db.parameter.GetOr([])| + 1
    ensures r.Success? ==> r.value.parameter.value[..|db.parameter.GetOr([])|] == db.parameter.GetOr([])
    ensures r.Success? ==>
      r.value.journal == db.journal + [RunSchemaScript, InsertParameter(ParamRow(DatabaseMarker, Some(versions[|versions| - 1].id)))]
    ensures r.Success? && db.parameter.None? ==>
      FirstValue(r.value.parameter.value, DatabaseMarker) == Some(versions[|versions| - 1].id)
  {
    var created := db.(parameter := Some(db.parameter.GetOr([])), journal := db.journal + [RunSchemaScript]);
    match Latest(versions)
    case None => Failure(NoVersionData)
    case Some(latest) =>
      var row := ParamRow(DatabaseMarker, Some(latest.id));
      FirstValueOfAppend(created.parameter.value, row);
      Success(created.(parameter := Some(created.parameter.value + [row]),
                       journal := created.journal + [InsertParameter(row)]))
  }

  /** `migrateSystem`: re-read the legacy row and accept only the supported
      tag. The migration itself is a placeholder: nothing in the database
      changes, and the answer is ignored by the caller. */
  function MigrateSystem(db: Database): (r: Result<bool, InstallError>)
    ensures r.Failure? <==> db.parameter.None?
    ensures r.Success? ==> (r.value <==> FirstValue(db.parameter.value, LegacyMarker) == Some(LegacyMigrationSource))
  {
    match db.parameter
    case None => Failure(MissingParameterTable)
    case Some(rows) =>
      var from := FirstValue(rows, LegacyMarker);
      if !Truthy(from) then Success(false)
      else if from.value != LegacyMigrationSource then Success(false)
      else Success(true)
  }

  /** The dispatch loop of `performInstallation`: each action in list order
      goes to its handler; install and migrate are handled, anything else
      (an update included) aborts with `InvalidAction`. Handler results are
      discarded. */
  function RunActions(actions: seq<Action>, db: Database, versions: seq<VersionEntry>): (r: Result<Database, InstallError>)
    ensures r.Success? ==> forall k :: 0 <= k < |actions| ==> actions[k].Install? || actions[k].Migrate?
    ensures r.Success? ==> db.journal <= r.value.journal
    ensures (forall k :: 0 <= k < |actions| ==> actions[k].Migrate?) && db.parameter.Some? ==> r == Success(db)
    ensures |actions| > 0 && actions[0].Update? ==> r == Failure(InvalidAction(UpdateId))
    ensures (|versions| > 0 && (db.parameter.Some? || (|actions| > 0 && actions[0].Install?)) &&
             (forall k :: 0 <= k < |actions| ==> actions[k].Install? || actions[k].Migrate?)) ==> r.Success?
    ensures |versions| > 0 && actions == [Install(versions[|versions| - 1])] ==> r == InstallSystem(db, versions)
    decreases |actions|
  {
    if |actions| == 0 then Success(db)
    else
      var action := actions[0];
      if action.Id() == InstallId then
        match InstallSystem(db, versions)
        case Failure(e) => Failure(e)
        case Success(next) => RunActions(actions[1..], next, versions)
      else if action.Id() == MigrateId then
        match MigrateSystem(db)
        case Failure(e) => Failure(e)
        case Success(_) => RunActions(actions[1..], db, versions)
      else
        Failure(InvalidAction(action.Id()))
  }

  /** What `performInstallation` returns: a refusal that carries the check,
      or plain success. */
  datatype PerformReport = Refused(check: CheckReport, reason: string) | Completed {
    predicate Success() { Completed? }
  }

  /** A finished run: its report and the database afterwards. */
  datatype Performed = Performed(report: PerformReport, db: Database)

  /** `performInstallation`. With nothing to do it refuses and touches
      nothing, not even a transaction. Otherwise it dispatches the actions
      inside one transaction and reports success once the loop completes. */
  function Perform(s: Snapshot): (r: Result<Performed, InstallError>)
    ensures r.Success? ==> Check(s).Success? && (r.value.report.Success() <==> Check(s).value.available != [])
    ensures r.Success? && r.value.report.Refused? ==>
      && r.value.db == s.db
      && r.value.report.reason == NoActionsReason
      && Check(s) == Success(r.value.report.check)
      && r.value.report.check.available == []
    ensures Check(s).Success? && Check(s).value.available == [] ==> r.Success? && r.value.report.Refused?
    ensures Check(s).Failure? ==> r == Failure(Check(s).error)
    ensures r.Success? && r.value.report.Completed? ==>
      && Check(s).Success? && |Check(s).value.available| > 0
      && |r.value.db.journal| >= |s.db.journal| + 2
      && r.value.db.journal[..|s.db.journal| + 1] == s.db.journal + [StartTransaction]
      && r.value.db.journal[|r.value.db.journal| - 1] == Commit
  {
    match Check(s)
    case Failure(e) => Failure(e)
    case Success(check) =>
      if |check.available| == 0 then
        Success(Performed(Refused(check, NoActionsReason), s.db))
      else
        var started := s.db.(journal := s.db.journal + [StartTransaction]);
        match RunActions(check.available, started, s.versions)
        case Failure(e) => Failure(e)
        case Success(db) => Success(Performed(Completed, db.(journal := db.journal + [Commit])))
  }

  /** An empty database: once installed, a second check proposes nothing.
      The run opens a transaction, runs the schema script, records the latest
      id and commits. */
  lemma InstallThenCheckProposesNothing(s: Snapshot)
    requires ReachesDatabase(s) && s.db.parameter.None? && |s.versions| > 0
    ensures Check(s) == Success(CheckReport(Check(s).value.system, [Install(s.versions[|s.versions| - 1])]))
    ensures Perform(s).Success? && Perform(s).value.report.Completed?
    ensures var db := Perform(s).value.db;
      && db.journal == s.db.journal + [StartTransaction, RunSchemaScript,
                                       InsertParameter(ParamRow(DatabaseMarker, Some(s.versions[|s.versions| - 1].id))), Commit]
      && FirstValue(db.parameter.value, DatabaseMarker) == Some(s.versions[|s.versions| - 1].id)
      && Check(s.(db := db)).Success?
      && Check(s.(db := db)).value.available == []
      && Check(s.(db := db)).value.system.installation
  {
    var latest := s.versions[|s.versions| - 1];
    var started := s.db.(journal := s.db.journal + [StartTransaction]);
    var installed := InstallSystem(started, s.versions);
    assert installed.Success?;
    var rows := installed.value.parameter.value;
    assert rows == [ParamRow(DatabaseMarker, Some(latest.id))];
    FirstValueOfAppend([], ParamRow(DatabaseMarker, Some(latest.id)));
    assert FirstValue(rows, DatabaseMarker) == Some(latest.id);
    assert FirstRow(rows, LegacyMarker).None? by {
      assert rows[0].name != LegacyMarker;
    }
    assert RunActions([Install(latest)], started, s.versions) == RunActions([], installed.value, s.versions);
  }

  /** The migration is a placeholder: a run completes and commits, yet the
      database keeps its rows, so the next check proposes the same migration
      again. */
  lemma MigrateLeavesProposalStanding(s: Snapshot)
    requires Check(s).Success? && |Check(s).value.available| == 1 && Check(s).value.available[0].Migrate?
    ensures Perform(s).Success? && Perform(s).value.report.Completed?
    ensures Perform(s).value.db == s.db.(journal := s.db.journal + [StartTransaction, Commit])
    ensures Check(s.(db := Perform(s).value.db)) == Check(s)
  {
    var started := s.db.(journal := s.db.journal + [StartTransaction]);
    assert RunActions(Check(s).value.available, started, s.versions) == Success(started);
  }

  /** An outdated installation gets an update proposal that the dispatcher
      cannot carry out: the run aborts with `Invalid install action`. */
  lemma PerformRejectsUpdate(s: Snapshot)
    requires Check(s).Success? && |Check(s).value.available| == 1 && Check(s).value.available[0].Update?
    ensures Perform(s) == Failure(InvalidAction(UpdateId))
  {
  }

  /** Whatever the environment, one check proposes at most one action, and
      every action it proposes targets the last catalog entry. */
  lemma ProposalsTargetLatest(s: Snapshot)
    requires Check(s).Success?
    ensures |Check(s).value.available| <= 1
    ensures forall k :: 0 <= k < |Check(s).value.available| ==>
              Check(s).value.available[k].to == s.versions[|s.versions| - 1]
  {
  }
}

=== FILE: wrappers.dfy ===
/** Option and Result carriers used throughout the installer model.
    `None` stands for PHP's NULL; `Failure` for an exception that escapes a call. */
module Wrappers {

  datatype Option<+T> = None | Some(value: T) {

    /** The carried value, or `default` when there is none. */
    function GetOr(default: T): T {
      match this
      case Some(v) => v
      case None => default
    }
  }

  datatype Result<+R, +E> = Success(value: R) | Failure(error: E)
}
